=== FILE: README.md ===
# Crawl engine decision logic (pomp `Pomp` engine)

This project models the sequential decision logic of pomp's crawl engine,
`pomp/core/engine.py`, and proves properties of it. The engine drives a
crawler, a downloader, an optional request queue and an item pipeline. The
model covers the parts that are pure decisions over finite data:

- `filter_requests`: which values count as requests to dispatch (`values.dfy`).
- `_process_result`: splitting what a crawler produced into requests and
  items, and folding the items through the pipeline stages
  (`pipeline.dfy`, `process.dfy`).
- `response_callback`: draining a generator of batches and merging the
  item-derived requests with the crawler's `next_requests` continuation
  (`process.dfy`).
- The stop state machine: the reset/start part of `pump`, `_check_stop`,
  `_stop` and the guarded stop at a depth-first leaf (`stop.dfy`).
- The queue-mode put loop of `_on_next_requests`, with the queue as an
  append-only log of `put_requests` calls (`queue.dfy`).

Python truthiness is explicit. A `Value` is a request descriptor, a string, an
item, or any other value, which carries only its truthiness. A `Batch` is what
a crawler hook or callback returns: `None`, a single value, a list, or a lazy
sequence. A generator or `itertools.chain` object is always truthy. Iterating
a `Batch` yields the list's elements, or wraps a single value (`None`
included) as a one-element sequence. Pipeline stages are total functions
`Item -> Option<Item>`, where `None` is a dropped (falsy) result. The
crawler's `process`, `next_requests` and `in_process` answers are parameters
of the model.

## Model

| member | source | states |
|---|---|---|
| Values.FilterRequests | pomp/core/engine.py:18-22 | keeps exactly the truthy values that iterating its argument yields |
| Seqs.FilterKeepsOrder | pomp/core/engine.py:18-22 | the filter of `filter_requests` and of the `isinstance` test at line 102 keeps the surviving values in their original order and with their multiplicities |
| Values.FalsyBatchYieldsNothing | pomp/core/engine.py:18-22 | a falsy returned value (None, an empty list, an empty string, a falsy scalar) contributes no request once filtered |
| Pipeline.ApplyStage | pomp/core/engine.py:114-120 | one stage never emits more items than it receives |
| Pipeline.Surviving | pomp/core/engine.py:113-120 | no contract; the stage-by-stage batch fold that `SurvivingIsPerItem`, `SurvivingConcat`, `StageSeesOnlySurvivors`, `DroppedNeverSeen`, `SurvivingShrinks` and `SurvivorsHaveOrigin` are about |
| Pipeline.ApplyStageMembers | pomp/core/engine.py:114-120 | a stage's output holds every non-falsy answer of the stage, and nothing the stage did not answer for one of its inputs |
| Pipeline.SurvivingConcat | pomp/core/engine.py:113-120 | the per-stage batches of a concatenation are the concatenations of the per-stage batches |
| Pipeline.SurvivingIsPerItem | pomp/core/engine.py:113-120 | the stage-by-stage batch fold equals threading each item through the stages on its own, in input order, keeping those no stage dropped |
| Pipeline.StageSeesOnlySurvivors | pomp/core/engine.py:113-120 | every item stage k+1 receives is a non-falsy answer of stage k for an item stage k received |
| Pipeline.DroppedNeverSeen | pomp/core/engine.py:113-120 | once a stage drops an item, every later stage receives exactly what it would receive had the item never been in the batch |
| Pipeline.SurvivingShrinks | pomp/core/engine.py:113-120 | the surviving count never increases from one stage to a later one |
| Pipeline.SurvivorsHaveOrigin | pomp/core/engine.py:113-120 | every item left after k stages is the k-stage image of some input item |
| Callback.ItemsOf | pomp/core/engine.py:107-110 | no contract beyond a length bound; the `isinstance(i, Item)` filter that `ItemsOfCounts` and `ItemsOfKeepsOrder` are about |
| Callback.ItemsOfCounts | pomp/core/engine.py:107-110 | each item is extracted exactly as many times as it occurs among the inputs, so the items are exactly the item-valued inputs |
| Callback.ItemsOfKeepsOrder | pomp/core/engine.py:107-110 | the i-th extracted item is the i-th item-valued input |
| Callback.ClassificationPartitions | pomp/core/engine.py:101-110 | request-likes, items and other values partition the input; other values reach neither list, and no item is classified as a request |
| Callback.ProcessResult | pomp/core/engine.py:99-120 | the request list holds exactly the requests and strings of the input; the pipeline output is the per-item threading of the items |
| Callback.ProcessResultKeepsOrder | pomp/core/engine.py:101-105 | the request list keeps the requests and strings in input order and with their multiplicities |
| Callback.ProcessResultConcat | pomp/core/engine.py:99-120 | processing two lists one after the other equals processing their concatenation |
| Callback.DrainFrom | pomp/core/engine.py:50-54 | no contract; the generator-draining `+=` loop that `DrainMatchesConcatenation` is about |
| Callback.DrainMatchesConcatenation | pomp/core/engine.py:49-54 | draining a generator batch by batch accumulates exactly the result of processing all its batches concatenated |
| Callback.FromItems | pomp/core/engine.py:47-58 | a generator of batches and a single batch with the same values give the same item-derived requests, and, for batches that are not themselves generators or chains, the same pipeline output |
| Callback.MergeNext | pomp/core/engine.py:60-71 | item-derived then crawler-derived when both are non-empty; item-derived alone when the continuation is falsy; the continuation alone when there are no item-derived requests; the result is truthy whenever there are item-derived requests |
| Callback.MergeDispatched | pomp/core/engine.py:60-71 | in every branch, the requests that survive filtering are the truthy item-derived ones followed by the truthy crawler-derived ones |
| Callback.ResponseCallback | pomp/core/engine.py:45-71 | for batches that are not themselves generators or chains, the pipeline output is the per-item threading of all items `process` produced; when `process` produced no request-like value, the crawler's `next_requests` answer is returned as it is |
| Callback.ResponseCallbackDispatches | pomp/core/engine.py:45-71 | the truthy requests of what `response_callback` returns are the truthy request-like outputs of `process` followed by the truthy `next_requests` values |
| StopMachine.Pump | pomp/core/engine.py:148-157 | a run starts unstopped with an unresolved completion signal, after every pipe's `start` in pipeline order |
| StopMachine.Stop | pomp/core/engine.py:252-259 | marks the run stopped, appends every pipe's `stop` in pipeline order, resolves the completion signal once more |
| StopMachine.CheckStop | pomp/core/engine.py:246-250 | returns its argument unchanged; stops the run iff it was not stopped, the argument is falsy and nothing is in process, and leaves the run untouched otherwise |
| StopMachine.EndOfRecursion | pomp/core/engine.py:92-93 | the depth-first leaf guard behaves exactly as `_check_stop` with a `None` argument |
| StopMachine.ApplyChecksKeepsShape | pomp/core/engine.py:246-259 | any sequence of stop checks keeps the run's hook log and completion count in shape, and the run ends stopped iff it was stopped or some check was quiescent |
| StopMachine.StopOncePerRun | pomp/core/engine.py:246-259 | after `pump` and any stop checks, the completion signal is resolved at most once, exactly when the run stopped, which is exactly when some check was quiescent; the hooks are the starts followed by the stops only if stopped |
| StopMachine.EachPipeStoppedAtMostOnce | pomp/core/engine.py:252-256 | within one run every pipeline position is started exactly once and stopped once if the run stopped, never otherwise |
| StopMachine.PumpKickoff | pomp/core/engine.py:159-194 | no contract; `pump`'s dispatch as written, which `KickoffStopsIff`, `BreadthFirstEmptyEntryChecksOnce`, `DepthFirstEmptyEntryNeverCompletes` and `FixOnlyTouchesEmptyDepthFirst` are about |
| StopMachine.KickoffChecks | pomp/core/engine.py:229-244 | no contract; the stop check that `pump`'s `_on_next_requests` callback runs when nothing is awaited, which `KickoffStopsIff` is about |
| StopMachine.KickoffStopsIff | pomp/core/engine.py:159-194 | whatever stop checks follow, the run ends stopped iff `pump`'s own check fired (it awaited no request, nothing was in process and, in queue mode, the queue gave back nothing truthy) or a later check fired; a run that does not stop has only its `start` hooks called and its completion unresolved |
| StopMachine.BreadthFirstEmptyEntryChecksOnce | pomp/core/engine.py:183-189 | as written, a breadth-first run without queue and without entry requests schedules exactly one `_check_stop(None)` |
| StopMachine.DepthFirstEmptyEntryNeverCompletes | pomp/core/engine.py:190-194 | as written, a depth-first run without queue and without entry requests never stops its pipes nor resolves its completion signal, although nothing is in process |
| StopMachine.FixOnlyTouchesEmptyDepthFirst | pomp/core/engine.py:183-194 | the corrected dispatch differs from the written one exactly in the depth-first, queue-less case with nothing to download |
| StopMachine.EmptyEntryRunCompletes | pomp/core/engine.py:183-194 | with the corrected dispatch, a queue-less run without entry requests and with nothing in process stops every pipe in order and resolves its completion once, in either strategy |
| QueuePut.PutLists | pomp/core/engine.py:220-223 | at most one put per result, and no put list is empty |
| QueuePut.PutListsContents | pomp/core/engine.py:220-223 | every put list is made of truthy values only, and the put lists concatenated are the truthy requests of all results in order |
| QueuePut.PutListsSingle | pomp/core/engine.py:220-223 | one result leads to exactly one `put_requests` call holding its truthy requests, or to none when nothing truthy is left |
| QueuePut.PutListsConcat | pomp/core/engine.py:220-223 | the puts for two runs of results one after the other are the puts of the first followed by those of the second, so there is one put per surviving result, in result order |
| QueuePut.PutListsSkipsFalsy | pomp/core/engine.py:220-223 | dropping the falsy per-response results before the loop changes none of the puts |
| QueuePut.PutAll | pomp/core/engine.py:216-223 | the queue log only grows; the appended put lists are non-empty, hold only truthy values, and concatenate to the truthy requests of all results in order |
| QueuePut.QueueReceivesMergedRequests | pomp/core/engine.py:60-74 | in queue mode the requests put for a round are, response by response, the truthy request-like outputs of `process` followed by the truthy `next_requests` values |

## Left out

- `downloader.prepare`, `downloader.process` and `queue.get_requests` are external I/O collaborators; their results appear only as inputs (the per-response results of a round, the value `get_requests` returned).
- The `defer` library and `DeferredList` (engine.py:157, 197-200, 236-237) are not part of this model, so whether a continuation fires at once or later is not modelled; a stop check is an event in a sequence.
- The dispatch order of depth-first and breadth-first traversal (`_do`, engine.py:202-214, and the recursive branches at engine.py:76-90 and 124-136) depends on downloader and `DeferredList` timing; no ordering theorem about it is stated.
- The depth-first branch of `_process_result`, where its return value becomes the downloader's result (engine.py:122-138); `ProcessResult` and `ResponseCallback` model the queue and breadth-first modes, where the request list itself is returned.
- Logging, and the log-and-re-raise around `get_requests` (engine.py:229-233): no state effect.
- Several engines sharing one queue: that feature is about concurrency.
- `crawler._reset_state()` (engine.py:149): the crawler's state is abstract; `in_process()` is an input of every stop check.
- Pipeline stages are pure functions; a stateful or raising `pipe.process` is not modelled, and neither is an exception from any collaborator.
- `pomp/core/utils.py` is not part of this model. Its `iterator` helper is assumed to return lists, tuples, generators and `itertools.chain` objects unchanged and to wrap anything else (None included) as a one-element sequence; `Lazy` stands for a generator or a chain, so the chain built at engine.py:64-67 is iterated element by element and never put as one value. Likewise `utils.DeferredList` over no request is assumed to fire its callback at once with no results.
- Callback.ProcessResult: treats the values handed to `_process_result` as a re-iterable sequence. When a batch is a generator or chain (a `Lazy` batch, or a generator `process` yielding one), the source's first pass at engine.py:101-104 exhausts it, so the second pass at engine.py:107-110 finds no item and the pipes receive none of that batch's items; the model pipes them.
- Callback.FromItems: its `piped` is exact only for batches that are not `Lazy`; for a generator or chain batch the source pipes none of that batch's items (engine.py:101-110) while the model pipes them all, so `piped` is an upper bound there. The request list is exact for every batch kind.
- Callback.ResponseCallback: same as for `FromItems`: `piped` is exact only for batches that are not `Lazy` and an upper bound otherwise; the next requests are exact.
- `BaseHttpRequest` and `Item` instances are assumed truthy, since their classes are not part of this model. A pipe's result is treated as dropped exactly when it is `None`.
- A value that is both an `Item` and a request (a class inheriting from both) is not modelled: the kinds are disjoint constructors.
- `pump`'s dispatch (engine.py:159-194) is modelled as what it schedules (`PumpKickoff`) and the stop check its `_on_next_requests` callback runs when nothing is awaited (`KickoffChecks`). What the downloader returns for the entry requests and for the first queue batch are inputs. When requests are awaited, the same callback runs its check (engine.py:237/239 or :244) once they resolve; that check, those of later rounds and the depth-first leaf guards are the arbitrary later checks of `KickoffStopsIff`, not derived from the downloads.
- Callback.MergeNext: does not state that `crawler.next_requests` is called exactly once per response; its answer is an input, which matches the one call on each path (engine.py:62 and :71).

## Findings

| source | as written | input that shows it | evidently intended | confidence | as-written member | corrected member |
|---|---|---|---|---|---|---|
| pomp/core/engine.py:183-194 | with no queue and a depth-first crawler, `pump` schedules nothing when `ENTRY_REQUESTS` is empty or missing (it only drains a generator), so neither `_check_stop` nor the leaf guard at engine.py:92 is ever reached | a depth-first crawler with `ENTRY_REQUESTS = []`, no queue, `in_process()` false | the run stops at once, stopping every pipe and resolving the deferred `pump` returned, as in breadth-first mode | medium, not executed | StopMachine.DepthFirstEmptyEntryNeverCompletes | StopMachine.EmptyEntryRunCompletes |

=== FILE: pipeline.dfy ===
/**
 The item pipeline fold of `_process_result` (engine.py:112-120): every
 stage is applied, in pipeline order, to the items that survived the
 previous stage, and the results a stage drops are filtered out before the
 next stage runs.
 */
module Pipeline {
  import opened Values

  /** One pipeline stage's `process`; `None` is a falsy (dropped) result. */
  type Stage = Item -> Option<Item>

  /** The list `list(filter(None, map(pipe.process, items)))` of one stage. */
  function ApplyStage(stage: Stage, items: seq<Item>): (r: seq<Item>)
    ensures |r| <= |items|
  {
    if items == [] then []
    else
      var rest := ApplyStage(stage, items[1..]);
      match stage(items[0])
      case None => rest
      case Some(y) => [y] + rest
  }

  /** The batch left after the first `k` stages have run; stage `k` (counting
      from 0) is called on exactly these items, in this order. */
  function Surviving(stages: seq<Stage>, items: seq<Item>, k: nat): (r: seq<Item>)
    requires k <= |stages|
  {
    if k == 0 then items
    else ApplyStage(stages[k - 1], Surviving(stages, items, k - 1))
  }

  /** The items that come out of the whole pipeline. */
  function Fold(stages: seq<Stage>, items: seq<Item>): seq<Item>
  {
    Surviving(stages, items, |stages|)
  }

  /** Reference definition, one item at a time: what becomes of `x` after the
      first `k` stages, `None` once some stage has dropped it. */
  function Reach(stages: seq<Stage>, x: Item, k: nat): Option<Item>
    requires k <= |stages|
  {
    if k == 0 then Some(x)
    else
      match Reach(stages, x, k - 1)
      case None => None
      case Some(y) => stages[k - 1](y)
  }

  function OptionToSeq(o: Option<Item>): seq<Item>
  {
    match o
    case None => []
    case Some(y) => [y]
  }

  /** The per-item reference applied to a whole batch, in batch order. */
  function ReachAll(stages: seq<Stage>, items: seq<Item>, k: nat): seq<Item>
    requires k <= |stages|
  {
    if items == [] then []
    else OptionToSeq(Reach(stages, items[0], k)) + ReachAll(stages, items[1..], k)
  }

  /** `stage` answered `Some(y)` for one of `inputs`. */
  ghost predicate Produces(stage: Stage, inputs: seq<Item>, y: Item)
  {
    exists x :: x in inputs && stage(x) == Some(y)
  }

  /** A stage's output holds exactly the non-falsy answers it gave. */
  lemma {:induction false} ApplyStageMembers(stage: Stage, items: seq<Item>)
    ensures forall y :: y in ApplyStage(stage, items) ==> Produces(stage, items, y)
    ensures forall x :: x in items && stage(x).Some? ==> stage(x).value in ApplyStage(stage, items)
  {
    if items != [] {
      ApplyStageMembers(stage, items[1..]);
    }
  }

  lemma {:induction false} ApplyStageConcat(stage: Stage, a: seq<Item>, b: seq<Item>)
    ensures ApplyStage(stage, a + b) == ApplyStage(stage, a) + ApplyStage(stage, b)
  {
    if a == [] {
      assert a + b == b;
    } else {
      assert (a + b)[0] == a[0];
      assert (a + b)[1..] == a[1..] + b;
      ApplyStageConcat(stage, a[1..], b);
    }
  }

  /** Running the pipeline on two batches one after the other gives the same
      per-stage inputs as running it once on their concatenation. */
  lemma {:induction false} SurvivingConcat(stages: seq<Stage>, a: seq<Item>, b: seq<Item>, k: nat)
    requires k <= |stages|
    ensures Surviving(stages, a + b, k) == Surviving(stages, a, k) + Surviving(stages, b, k)
  {
    if k > 0 {
      var sa, sb := Surviving(stages, a, k - 1), Surviving(stages, b, k - 1);
      SurvivingConcat(stages, a, b, k - 1);
      assert Surviving(stages, a + b, k) == ApplyStage(stages[k - 1], sa + sb);
      ApplyStageConcat(stages[k - 1], sa, sb);
    }
  }

  lemma {:induction false} SurvivingSingle(stages: seq<Stage>, x: Item, k: nat)
    requires k <= |stages|
    ensures Surviving(stages, [x], k) == OptionToSeq(Reach(stages, x, k))
  {
    if k > 0 {
      SurvivingSingle(stages, x, k - 1);
      match Reach(stages, x, k - 1)
      case None =>
      case Some(y) =>
        assert [y][1..] == [];
    }
  }

  /** The batch fold, stage by stage, agrees with threading every item through
      all stages on its own and keeping the ones no stage dropped. */
  lemma {:induction false} SurvivingIsPerItem(stages: seq<Stage>, items: seq<Item>, k: nat)
    requires k <= |stages|
    ensures Surviving(stages, items, k) == ReachAll(stages, items, k)
  {
    if items == [] {
      SurvivingEmpty(stages, k);
    } else {
      assert items == [items[0]] + items[1..];
      SurvivingConcat(stages, [items[0]], items[1..], k);
      SurvivingSingle(stages, items[0], k);
      SurvivingIsPerItem(stages, items[1..], k);
    }
  }

  lemma {:induction false} SurvivingEmpty(stages: seq<Stage>, k: nat)
    requires k <= |stages|
    ensures Surviving(stages, [], k) == []
  {
    if k > 0 {
      SurvivingEmpty(stages, k - 1);
    }
  }

  lemma {:induction false} ReachStaysDropped(stages: seq<Stage>, x: Item, j: nat, k: nat)
    requires j <= k <= |stages|
    requires Reach(stages, x, j) == None
    ensures Reach(stages, x, k) == None
  {
    if k > j {
      ReachStaysDropped(stages, x, j, k - 1);
    }
  }

  /** An item dropped by some stage is seen by no later stage: from then on
      the batch behaves as if the item had never been in it. */
  lemma DroppedNeverSeen(stages: seq<Stage>, a: seq<Item>, x: Item, b: seq<Item>, j: nat, k: nat)
    requires j <= k <= |stages|
    requires Reach(stages, x, j) == None
    ensures Surviving(stages, a + [x] + b, k) == Surviving(stages, a + b, k)
  {
    ReachStaysDropped(stages, x, j, k);
    SurvivingConcat(stages, a + [x], b, k);
    SurvivingConcat(stages, a, [x], k);
    SurvivingSingle(stages, x, k);
    SurvivingConcat(stages, a, b, k);
  }

  /** Every item that stage `k` receives is stage `k - 1`'s non-falsy answer
      for an item that stage `k - 1` received. */
  lemma StageSeesOnlySurvivors(stages: seq<Stage>, items: seq<Item>, k: nat, y: Item)
    requires 0 < k <= |stages|
    requires y in Surviving(stages, items, k)
    ensures Produces(stages[k - 1], Surviving(stages, items, k - 1), y)
  {
    ApplyStageMembers(stages[k - 1], Surviving(stages, items, k - 1));
  }

  /** The surviving count never grows from one stage to a later one. */
  lemma {:induction false} SurvivingShrinks(stages: seq<Stage>, items: seq<Item>, j: nat, k: nat)
    requires j <= k <= |stages|
    ensures |Surviving(stages, items, k)| <= |Surviving(stages, items, j)|
  {
    if k > j {
      SurvivingShrinks(stages, items, j, k - 1);
    }
  }

  /** Every item left after `k` stages is the `k`-stage image of an input item. */
  lemma {:induction false} SurvivorsHaveOrigin(stages: seq<Stage>, items: seq<Item>, k: nat, y: Item)
    requires k <= |stages|
    requires y in Surviving(stages, items, k)
    ensures exists x :: x in items && Reach(stages, x, k) == Some(y)
  {
    if k > 0 {
      ApplyStageMembers(stages[k - 1], Surviving(stages, items, k - 1));
      var x' :| x' in Surviving(stages, items, k - 1) && stages[k - 1](x') == Some(y);
      SurvivorsHaveOrigin(stages, items, k - 1, x');
      var x :| x in items && Reach(stages, x, k - 1) == Some(x');
      assert Reach(stages, x, k) == Some(y);
    }
  }
}

=== FILE: process.dfy ===
/**
 The per-response decision logic of the engine: `_process_result` splits
 what the crawler produced into requests and items and pipes the items
 (engine.py:99-120), and `response_callback` drains a generator of batches
 and merges the item-derived requests with the crawler's `next_requests`
 continuation (engine.py:45-71).
 */
module Callback {
  import opened Seqs
  import opened Values
  import opened Pipeline

  /** The items among produced values (the `isinstance(i, Item)` filter). */
  function ItemsOf(vs: seq<Value>): (r: seq<Item>)
    ensures |r| <= |vs|
  {
    if vs == [] then []
    else
      assert vs == [vs[0]] + vs[1..];
      var rest := ItemsOf(vs[1..]);
      match vs[0]
      case ItemValue(it) => [it] + rest
      case _ => rest
  }

  predicate IsItemValue(v: Value)
  {
    v.ItemValue?
  }

  predicate IsOtherKind(v: Value)
  {
    v.Other?
  }

  /** The items come out in input order: the `i`-th item extracted is the
      `i`-th item-valued input. */
  lemma {:induction false} ItemsOfKeepsOrder(vs: seq<Value>)
    ensures |ItemsOf(vs)| == |Filter(IsItemValue, vs)|
    ensures forall i :: 0 <= i < |ItemsOf(vs)| ==> Filter(IsItemValue, vs)[i] == ItemValue(ItemsOf(vs)[i])
  {
    if vs != [] {
      var x, tail := vs[0], vs[1..];
      assert vs == [x] + tail;
      ItemsOfKeepsOrder(tail);
      FilterCons(IsItemValue, x, tail);
      ItemsOfCons(x, tail);
    }
  }

  /** Each item is extracted as many times as it occurs among the inputs,
      so the items are exactly the item-valued inputs. */
  lemma {:induction false} ItemsOfCounts(vs: seq<Value>, it: Item)
    ensures multiset(ItemsOf(vs))[it] == multiset(vs)[ItemValue(it)]
    ensures it in ItemsOf(vs) <==> ItemValue(it) in vs
  {
    if vs != [] {
      var x, tail := vs[0], vs[1..];
      assert vs == [x] + tail;
      ItemsOfCounts(tail, it);
      ItemsOfCons(x, tail);
      assert multiset(vs) == multiset{x} + multiset(tail);
      assert multiset(ItemsOf(vs)) == multiset(ItemOf(x)) + multiset(ItemsOf(tail));
    }
    assert it in ItemsOf(vs) <==> it in multiset(ItemsOf(vs));
    assert ItemValue(it) in vs <==> ItemValue(it) in multiset(vs);
  }

  function ItemOf(v: Value): seq<Item>
  {
    if v.ItemValue? then [v.item] else []
  }

  lemma ItemsOfCons(v: Value, rest: seq<Value>)
    ensures ItemsOf([v] + rest) == ItemOf(v) + ItemsOf(rest)
  {
    assert ([v] + rest)[0] == v;
    assert ([v] + rest)[1..] == rest;
  }

  lemma {:induction false} ItemsOfConcat(a: seq<Value>, b: seq<Value>)
    ensures ItemsOf(a + b) == ItemsOf(a) + ItemsOf(b)
  {
    if a == [] {
      assert a + b == b;
    } else {
      var x, tail := a[0], a[1..];
      assert a == [x] + tail;
      assert a + b == [x] + (tail + b);
      ItemsOfCons(x, tail + b);
      ItemsOfCons(x, tail);
      ItemsOfConcat(tail, b);
    }
  }

  /** Every produced value is a request, an item, or of another kind, and
      values of another kind reach neither the request list nor the items. */
  lemma {:induction false} ClassificationPartitions(vs: seq<Value>)
    ensures |Filter(IsRequestLike, vs)| + |ItemsOf(vs)| + |Filter(IsOtherKind, vs)| == |vs|
    ensures forall v :: v in Filter(IsRequestLike, vs) ==> !v.Other? && !v.ItemValue?
  {
    if vs != [] {
      ClassificationPartitions(vs[1..]);
    }
  }

  /** What `_process_result` hands back (the request list) and what the last
      pipeline stage emits. */
  datatype Outcome = Outcome(requests: seq<Value>, piped: seq<Item>)

  function Join(a: Outcome, b: Outcome): Outcome
  {
    Outcome(a.requests + b.requests, a.piped + b.piped)
  }

  lemma JoinAssociative(a: Outcome, b: Outcome, c: Outcome)
    ensures Join(Join(a, b), c) == Join(a, Join(b, c))
  {
    assert (a.requests + b.requests) + c.requests == a.requests + (b.requests + c.requests);
    assert (a.piped + b.piped) + c.piped == a.piped + (b.piped + c.piped);
  }

  /** `_process_result` in queue mode and in breadth-first mode, where its
      result is the request list itself. */
  function ProcessResult(stages: seq<Stage>, vs: seq<Value>): (r: Outcome)
    ensures forall v :: v in r.requests <==> v in vs && IsRequestLike(v)
    ensures r.piped == ReachAll(stages, ItemsOf(vs), |stages|)
  {
    var requests := Filter(IsRequestLike, vs);
    var items := ItemsOf(vs);
    SurvivingIsPerItem(stages, items, |stages|);
    Outcome(requests, Fold(stages, items))
  }

  /** The request list keeps the order and the multiplicities of the
      request-like values among the inputs. */
  lemma ProcessResultKeepsOrder(stages: seq<Stage>, vs: seq<Value>)
    ensures forall v :: multiset(ProcessResult(stages, vs).requests)[v] == if IsRequestLike(v) then multiset(vs)[v] else 0
    ensures IsSubseq(ProcessResult(stages, vs).requests, vs)
  {
    FilterKeepsOrder(IsRequestLike, vs);
  }

  lemma ProcessResultEmpty(stages: seq<Stage>)
    ensures ProcessResult(stages, []) == Outcome([], [])
  {
    SurvivingEmpty(stages, |stages|);
  }

  /** Processing two lists one after the other equals processing their
      concatenation. */
  lemma ProcessResultConcat(stages: seq<Stage>, a: seq<Value>, b: seq<Value>)
    ensures ProcessResult(stages, a + b) == Join(ProcessResult(stages, a), ProcessResult(stages, b))
  {
    FilterConcat(IsRequestLike, a, b);
    ItemsOfConcat(a, b);
    SurvivingConcat(stages, ItemsOf(a), ItemsOf(b), |stages|);
  }

  /** What `crawler.process(response)` returns: a generator of batches, or a
      single batch. */
  datatype CrawlerOutput = Generator(batches: seq<Batch>) | Plain(result: Batch)

  /** Every value the crawler's output yields, batch after batch. */
  function IteratedAll(bs: seq<Batch>): seq<Value>
  {
    if bs == [] then [] else Iterate(bs[0]) + IteratedAll(bs[1..])
  }

  function AllValues(out: CrawlerOutput): seq<Value>
  {
    match out
    case Generator(bs) => IteratedAll(bs)
    case Plain(b) => Iterate(b)
  }

  /** The generator loop (engine.py:50-54): `acc` is what the batches
      consumed so far have contributed. */
  function DrainFrom(stages: seq<Stage>, bs: seq<Batch>, acc: Outcome): Outcome
  {
    if bs == [] then acc
    else DrainFrom(stages, bs[1..], Join(acc, ProcessResult(stages, Iterate(bs[0]))))
  }

  lemma {:induction false} DrainMatchesConcatenation(stages: seq<Stage>, bs: seq<Batch>, acc: Outcome)
    ensures DrainFrom(stages, bs, acc) == Join(acc, ProcessResult(stages, IteratedAll(bs)))
  {
    if bs == [] {
      ProcessResultEmpty(stages);
      assert IteratedAll(bs) == [];
      assert acc.requests + [] == acc.requests;
      assert acc.piped + [] == acc.piped;
    } else {
      var first := ProcessResult(stages, Iterate(bs[0]));
      var rest := ProcessResult(stages, IteratedAll(bs[1..]));
      DrainMatchesConcatenation(stages, bs[1..], Join(acc, first));
      assert DrainFrom(stages, bs, acc) == Join(Join(acc, first), rest);
      ProcessResultConcat(stages, Iterate(bs[0]), IteratedAll(bs[1..]));
      assert IteratedAll(bs) == Iterate(bs[0]) + IteratedAll(bs[1..]);
      assert ProcessResult(stages, IteratedAll(bs)) == Join(first, rest);
      JoinAssociative(acc, first, rest);
    }
  }

  /** The item-derived requests of one response (engine.py:49-58): a
      generator is drained completely, and the outcome is the same as if all
      its batches had come as one list. */
  function FromItems(stages: seq<Stage>, out: CrawlerOutput): (r: Outcome)
    ensures r == ProcessResult(stages, AllValues(out))
  {
    match out
    case Generator(bs) =>
      DrainMatchesConcatenation(stages, bs, Outcome([], []));
      DrainFrom(stages, bs, Outcome([], []))
    case Plain(b) =>
      ProcessResult(stages, Iterate(b))
  }

  /** The merge rule (engine.py:60-71); `continuation` is what the crawler's
      `next_requests` returned. */
  function MergeNext(fromItems: seq<Value>, continuation: Batch): (r: Batch)
    ensures fromItems != [] && BatchTruthy(continuation) ==>
      BatchTruthy(r) && Iterate(r) == fromItems + Iterate(continuation)
    ensures fromItems != [] && !BatchTruthy(continuation) ==>
      BatchTruthy(r) && Iterate(r) == fromItems
    ensures fromItems == [] ==> r == continuation
  {
    if fromItems != [] then
      if BatchTruthy(continuation) then Lazy(fromItems + Iterate(continuation))
      else Listed(fromItems)
    else
      continuation
  }

  /** Whichever branch the merge takes, the requests that survive filtering
      are the item-derived ones followed by the crawler-derived ones. */
  lemma MergeDispatched(fromItems: seq<Value>, continuation: Batch)
    ensures FilterRequests(MergeNext(fromItems, continuation))
         == Filter(IsTruthy, fromItems) + FilterRequests(continuation)
  {
    if fromItems != [] {
      if BatchTruthy(continuation) {
        FilterConcat(IsTruthy, fromItems, Iterate(continuation));
      } else {
        FalsyBatchYieldsNothing(continuation);
      }
    }
  }

  /** What `response_callback` returns, and what the last pipeline stage
      emitted while it ran. */
  datatype CallbackResult = CallbackResult(next: Batch, piped: seq<Item>)

  /** `response_callback` in queue mode and in breadth-first mode, where it
      returns the merged next requests; `out` and `continuation` are what the
      crawler's `process` and `next_requests` return for the response. */
  function ResponseCallback(stages: seq<Stage>, out: CrawlerOutput, continuation: Batch): (r: CallbackResult)
    ensures Filter(IsRequestLike, AllValues(out)) == [] ==> r.next == continuation
    ensures r.piped == ReachAll(stages, ItemsOf(AllValues(out)), |stages|)
  {
    var fromItems := FromItems(stages, out);
    CallbackResult(MergeNext(fromItems.requests, continuation), fromItems.piped)
  }

  /** The requests that survive filtering of what `response_callback`
      returns: the truthy request-like outputs of `process`, then the truthy
      values `next_requests` returned. */
  lemma ResponseCallbackDispatches(stages: seq<Stage>, out: CrawlerOutput, continuation: Batch)
    ensures FilterRequests(ResponseCallback(stages, out, continuation).next)
         == Filter(IsTruthy, Filter(IsRequestLike, AllValues(out))) + FilterRequests(continuation)
  {
    MergeDispatched(FromItems(stages, out).requests, continuation);
  }
}

=== FILE: queue.dfy ===
/**
 Queue-mode hand-off of next requests (engine.py:216-223): the results of
 one dispatch round, one per response, are filtered and pushed to the queue
 with `put_requests`. The queue is modelled as the append-only log of the
 lists it was given.
 */
module QueuePut {
  import opened Seqs
  import opened Values
  import opened Pipeline
  import opened Callback

  /** Every `put_requests` call the queue has received, oldest first. */
  datatype QueueLog = QueueLog(puts: seq<seq<Value>>)

  /** The lists handed to `put_requests` for the per-response results
      `results`: falsy results are skipped, falsy requests are removed, and
      a list left empty is not put. */
  function PutLists(results: seq<Batch>): (puts: seq<seq<Value>>)
    ensures |puts| <= |results|
    ensures forall i :: 0 <= i < |puts| ==> puts[i] != []
  {
    if results == [] then []
    else
      var rest := PutLists(results[1..]);
      var filtered := FilterRequests(results[0]);
      if !BatchTruthy(results[0]) then rest
      else if filtered == [] then rest
      else [filtered] + rest
  }

  /** The put lists hold only truthy values, and concatenated they are the
      truthy requests of all results, in order: nothing is lost, duplicated
      or reordered. */
  lemma {:induction false} PutListsContents(results: seq<Batch>)
    ensures forall i, v :: 0 <= i < |PutLists(results)| && v in PutLists(results)[i] ==> IsTruthy(v)
    ensures Flatten(PutLists(results)) == FlattenRequests(results)
  {
    if results != [] {
      PutListsContents(results[1..]);
      if !BatchTruthy(results[0]) {
        FalsyBatchYieldsNothing(results[0]);
      }
    }
  }

  lemma {:induction false} PutListsConcat(a: seq<Batch>, b: seq<Batch>)
    ensures PutLists(a + b) == PutLists(a) + PutLists(b)
  {
    if a == [] {
      assert a + b == b;
    } else {
      assert (a + b)[0] == a[0];
      assert (a + b)[1..] == a[1..] + b;
      PutListsConcat(a[1..], b);
    }
  }

  lemma PutListsStep(bs: seq<Batch>, i: nat)
    requires i < |bs|
    ensures BatchTruthy(bs[i]) && FilterRequests(bs[i]) != [] ==>
      PutLists(bs[..i + 1]) == PutLists(bs[..i]) + [FilterRequests(bs[i])]
    ensures !(BatchTruthy(bs[i]) && FilterRequests(bs[i]) != []) ==>
      PutLists(bs[..i + 1]) == PutLists(bs[..i])
  {
    assert bs[..i + 1] == bs[..i] + [bs[i]];
    PutListsConcat(bs[..i], [bs[i]]);
    PutListsSingle(bs[i]);
    if !BatchTruthy(bs[i]) {
      FalsyBatchYieldsNothing(bs[i]);
    }
  }

  /** One result leads to one `put_requests` call, unless nothing truthy
      is left of it. */
  lemma PutListsSingle(b: Batch)
    ensures PutLists([b]) == if FilterRequests(b) == [] then [] else [FilterRequests(b)]
  {
    assert [b][1..] == [];
    if !BatchTruthy(b) {
      FalsyBatchYieldsNothing(b);
    }
  }

  /** Dropping the falsy results first, as the loop does, changes nothing. */
  lemma {:induction false} PutListsSkipsFalsy(results: seq<Batch>)
    ensures PutLists(Filter(BatchTruthy, results)) == PutLists(results)
  {
    if results != [] {
      PutListsSkipsFalsy(results[1..]);
      assert results == [results[0]] + results[1..];
      if BatchTruthy(results[0]) {
        assert Filter(BatchTruthy, results) == [results[0]] + Filter(BatchTruthy, results[1..]);
        PutListsConcat([results[0]], Filter(BatchTruthy, results[1..]));
      }
    }
  }

  /** The loop of `_on_next_requests` in queue mode: the queue log only grows,
      every put list is non-empty and holds only truthy requests, and the put
      lists, concatenated, are exactly the truthy requests of all results in
      order. */
  method PutAll(queue: QueueLog, results: seq<Batch>) returns (q: QueueLog)
    ensures |q.puts| >= |queue.puts| && q.puts[..|queue.puts|] == queue.puts
    ensures q.puts == queue.puts + PutLists(results)
    ensures forall i :: |queue.puts| <= i < |q.puts| ==> q.puts[i] != []
    ensures forall i, v :: |queue.puts| <= i < |q.puts| && v in q.puts[i] ==> IsTruthy(v)
    ensures Flatten(q.puts[|queue.puts|..]) == FlattenRequests(results)
  {
    q := queue;
    // `filter_requests(next_requests)` skips the falsy results; the loop
    // skips them in place.
    for i := 0 to |results|
      invariant q.puts == queue.puts + PutLists(results[..i])
    {
      PutListsStep(results, i);
      if BatchTruthy(results[i]) {
        var filtered := FilterRequests(results[i]);
        if filtered != [] {
          q := QueueLog(q.puts + [filtered]);
        }
      }
    }
    assert results[..|results|] == results;
    AppendedPuts(queue.puts, results);
  }

  lemma AppendedPuts(before: seq<seq<Value>>, results: seq<Batch>)
    ensures var after := before + PutLists(results);
      && after[..|before|] == before
      && Flatten(after[|before|..]) == FlattenRequests(results)
      && (forall i :: |before| <= i < |after| ==> after[i] != [])
      && (forall i, v :: |before| <= i < |after| && v in after[i] ==> IsTruthy(v))
  {
    var after := before + PutLists(results);
    PutListsContents(results);
    assert after[|before|..] == PutLists(results);
    assert forall i :: |before| <= i < |after| ==> after[i] == PutLists(results)[i - |before|];
  }

  /** One response of a dispatch round, as the crawler answers it: what its
      `process` returned and what its `next_requests` returned. */
  datatype ResponseAnswer = ResponseAnswer(output: CrawlerOutput, continuation: Batch)

  /** The results that `response_callback` returns for the responses of a
      round, in order. */
  function RoundResults(stages: seq<Stage>, answers: seq<ResponseAnswer>): seq<Batch>
  {
    if answers == [] then []
    else [ResponseCallback(stages, answers[0].output, answers[0].continuation).next]
         + RoundResults(stages, answers[1..])
  }

  /** What one response contributes to the queue, stated without the engine:
      its truthy request-like outputs, then its truthy continuation values. */
  function Contribution(a: ResponseAnswer): seq<Value>
  {
    Filter(IsTruthy, Filter(IsRequestLike, AllValues(a.output))) + FilterRequests(a.continuation)
  }

  function Contributions(answers: seq<ResponseAnswer>): seq<Value>
  {
    if answers == [] then [] else Contribution(answers[0]) + Contributions(answers[1..])
  }

  /** End to end in queue mode: the requests the queue receives for a round
      are, response by response, the truthy item-derived requests followed
      by the truthy crawler-derived ones; no falsy value is ever put, and no
      item that `process` produced. */
  lemma {:induction false} QueueReceivesMergedRequests(stages: seq<Stage>, answers: seq<ResponseAnswer>)
    ensures Flatten(PutLists(RoundResults(stages, answers))) == Contributions(answers)
  {
    if answers != [] {
      QueueReceivesMergedRequests(stages, answers[1..]);
      var first := ResponseCallback(stages, answers[0].output, answers[0].continuation).next;
      ResponseCallbackDispatches(stages, answers[0].output, answers[0].continuation);
      assert RoundResults(stages, answers) == [first] + RoundResults(stages, answers[1..]);
      FlattenRequestsConcat([first], RoundResults(stages, answers[1..]));
      PutListsContents(RoundResults(stages, answers));
      PutListsContents(RoundResults(stages, answers[1..]));
      assert FlattenRequests([first]) == FilterRequests(first);
    }
  }
}

=== FILE: seqs.dfy ===
/**
 Sequence helpers shared by the engine model: an order-preserving filter,
 the subsequence relation that characterises it, and flattening of nested
 sequences.
 */
module Seqs {

  /** `a` can be obtained from `b` by deleting elements, keeping the order. */
  predicate IsSubseq<T(==)>(a: seq<T>, b: seq<T>)
    decreases |b|
  {
    if a == [] then true
    else if b == [] then false
    else (a[0] == b[0] && IsSubseq(a[1..], b[1..])) || IsSubseq(a, b[1..])
  }

  /** Keeps exactly the elements of `s` that satisfy `p`. */
  function Filter<T(==,!new)>(p: T -> bool, s: seq<T>): (r: seq<T>)
    ensures |r| <= |s|
    ensures forall x :: x in r <==> x in s && p(x)
  {
    if s == [] then []
    else
      var rest := Filter(p, s[1..]);
      assert s == [s[0]] + s[1..];
      if p(s[0]) then [s[0]] + rest else rest
  }

  /** The kept elements stay in their original order and keep their
      original multiplicities. */
  lemma {:induction false} FilterKeepsOrder<T(!new)>(p: T -> bool, s: seq<T>)
    ensures forall x :: multiset(Filter(p, s))[x] == if p(x) then multiset(s)[x] else 0
    ensures IsSubseq(Filter(p, s), s)
  {
    if s != [] {
      FilterKeepsOrder(p, s[1..]);
      assert s == [s[0]] + s[1..];
      assert multiset(s) == multiset{s[0]} + multiset(s[1..]);
      if p(s[0]) {
        assert Filter(p, s)[1..] == Filter(p, s[1..]);
      }
    }
  }

  lemma FilterCons<T(!new)>(p: T -> bool, x: T, rest: seq<T>)
    ensures Filter(p, [x] + rest) == (if p(x) then [x] else []) + Filter(p, rest)
  {
    assert ([x] + rest)[0] == x;
    assert ([x] + rest)[1..] == rest;
  }

  lemma {:induction false} FilterConcat<T(!new)>(p: T -> bool, a: seq<T>, b: seq<T>)
    ensures Filter(p, a + b) == Filter(p, a) + Filter(p, b)
  {
    if a == [] {
      assert a + b == b;
    } else {
      assert (a + b)[1..] == a[1..] + b;
      FilterConcat(p, a[1..], b);
    }
  }

  /** Concatenation of the inner sequences, in order. */
  function Flatten<T>(ss: seq<seq<T>>): (r: seq<T>)
  {
    if ss == [] then [] else ss[0] + Flatten(ss[1..])
  }
}

=== FILE: stop.dfy ===
/**
 The run stop state machine: `pump` resets the run and starts every pipe
 (engine.py:148-157), `_check_stop` and the depth-first leaf test decide
 when the traversal is over (engine.py:92, 246-250), and `_stop` stops every
 pipe and resolves the run's completion signal (engine.py:252-259).
 */
module StopMachine {
  import opened Values

  /** A lifecycle hook call on the pipe at position `pipe` of the pipeline. */
  datatype PipeEvent = Started(pipe: nat) | Stopped(pipe: nat)

  /** The engine's state for one run: how many pipes the pipeline has, the
      `stoped` flag, every pipe hook called so far, and how many times the
      run's completion signal (`stop_deferred`) has been resolved. */
  datatype Run = Run(pipes: nat, stopped: bool, log: seq<PipeEvent>, resolutions: nat)

  /** `pipe.start` for every pipe, in pipeline order. */
  function StartEvents(n: nat): (r: seq<PipeEvent>)
    ensures |r| == n
  {
    if n == 0 then [] else StartEvents(n - 1) + [Started(n - 1)]
  }

  /** `pipe.stop` for every pipe, in pipeline order. */
  function StopEvents(n: nat): (r: seq<PipeEvent>)
    ensures |r| == n
  {
    if n == 0 then [] else StopEvents(n - 1) + [Stopped(n - 1)]
  }

  /** The reset/start part of `pump`: the run starts unstopped, with a fresh
      unresolved completion signal, after every pipe's `start` hook has run in
      pipeline order. `history` holds the hook calls of earlier runs. */
  function Pump(history: seq<PipeEvent>, pipes: nat): (r: Run)
    ensures !r.stopped && r.resolutions == 0 && r.pipes == pipes
    ensures |r.log| == |history| + pipes && r.log[..|history|] == history
    ensures forall i :: 0 <= i < pipes ==> r.log[|history| + i] == Started(i)
  {
    StartEventsInOrder(pipes);
    Run(pipes, false, history + StartEvents(pipes), 0)
  }

  /** `_stop`: marks the run stopped, calls every pipe's `stop` hook in
      pipeline order, then resolves the completion signal. */
  function Stop(run: Run): (r: Run)
    ensures r.stopped && r.pipes == run.pipes
    ensures r.resolutions == run.resolutions + 1
    ensures |r.log| == |run.log| + run.pipes && r.log[..|run.log|] == run.log
    ensures forall i :: 0 <= i < run.pipes ==> r.log[|run.log| + i] == Stopped(i)
  {
    StopEventsInOrder(run.pipes);
    Run(run.pipes, true, run.log + StopEvents(run.pipes), run.resolutions + 1)
  }

  /** Nothing further to do: no truthy value came back and the crawler has
      no work in flight. */
  predicate Quiescent(request: Batch, inProcess: bool)
  {
    !BatchTruthy(request) && !inProcess
  }

  /** `_check_stop`: hands its argument back unchanged, and stops the run
      exactly when it is not yet stopped and everything is quiescent. */
  function CheckStop(run: Run, request: Batch, inProcess: bool): (r: (Run, Batch))
    ensures r.1 == request
    ensures r.0.stopped <==> run.stopped || Quiescent(request, inProcess)
    ensures !run.stopped && Quiescent(request, inProcess) ==> r.0 == Stop(run)
    ensures run.stopped || !Quiescent(request, inProcess) ==> r.0 == run
  {
    if !run.stopped && !BatchTruthy(request) && !inProcess then (Stop(run), request)
    else (run, request)
  }

  /** The guarded stop when a depth-first recursion has no next requests
      (engine.py:92); it acts exactly as a `_check_stop(None, ...)`. */
  function EndOfRecursion(run: Run, inProcess: bool): (r: Run)
    ensures r == CheckStop(run, Absent, inProcess).0
  {
    if !run.stopped && !inProcess then Stop(run) else run
  }

  /** One evaluation of the stop condition, from one of its three call sites:
      after a queue fetch (engine.py:235-239, `got` is what `get_requests`
      returned), at the end of a queue-less `_on_next_requests` round
      (engine.py:244, reached from `pump` at engine.py:185-189 and, in
      depth-first mode, from the recursion at engine.py:86-90 and 132-136),
      or at a depth-first leaf (engine.py:92). `inProcess` is what the
      crawler's `in_process()` answered at that moment. */
  datatype StopCheck =
    | QueueFetched(got: Batch, inProcess: bool)
    | RecursionEnded(inProcess: bool)
    | LeafReached(inProcess: bool)

  predicate Fires(c: StopCheck)
  {
    match c
    case QueueFetched(got, p) => Quiescent(got, p)
    case RecursionEnded(p) => Quiescent(Absent, p)
    case LeafReached(p) => Quiescent(Absent, p)
  }

  function ApplyCheck(run: Run, c: StopCheck): Run
  {
    match c
    case QueueFetched(got, p) => CheckStop(run, got, p).0
    case RecursionEnded(p) => CheckStop(run, Absent, p).0
    case LeafReached(p) => EndOfRecursion(run, p)
  }

  /** The run after a sequence of stop checks, in the order they happened. */
  function ApplyChecks(run: Run, cs: seq<StopCheck>): Run
    decreases |cs|
  {
    if cs == [] then run else ApplyChecks(ApplyCheck(run, cs[0]), cs[1..])
  }

  /** The shape every run keeps: after the hooks of earlier runs come the
      `start` hooks, then the `stop` hooks exactly when the run is stopped,
      and the completion signal is resolved once exactly when stopped. */
  predicate RunShape(run: Run, history: seq<PipeEvent>)
  {
    && run.log == history + StartEvents(run.pipes) + (if run.stopped then StopEvents(run.pipes) else [])
    && run.resolutions == (if run.stopped then 1 else 0)
  }

  lemma ApplyCheckKeepsShape(run: Run, history: seq<PipeEvent>, c: StopCheck)
    requires RunShape(run, history)
    ensures RunShape(ApplyCheck(run, c), history)
    ensures ApplyCheck(run, c).pipes == run.pipes
    ensures ApplyCheck(run, c).stopped <==> run.stopped || Fires(c)
  {
    if !run.stopped && Fires(c) {
      assert ApplyCheck(run, c) == Stop(run);
    } else {
      assert ApplyCheck(run, c) == run;
    }
  }

  lemma {:induction false} ApplyChecksKeepsShape(run: Run, history: seq<PipeEvent>, cs: seq<StopCheck>)
    requires RunShape(run, history)
    ensures RunShape(ApplyChecks(run, cs), history)
    ensures ApplyChecks(run, cs).pipes == run.pipes
    ensures ApplyChecks(run, cs).stopped <==> run.stopped || exists c :: c in cs && Fires(c)
    decreases |cs|
  {
    if cs != [] {
      ApplyCheckKeepsShape(run, history, cs[0]);
      ApplyChecksKeepsShape(ApplyCheck(run, cs[0]), history, cs[1..]);
      assert forall c :: c in cs <==> c == cs[0] || c in cs[1..];
    }
  }

  /** Stop once per run: whatever stop checks follow `pump`, the run is
      stopped exactly when one of them found everything quiescent; the
      completion signal is then resolved once, and never twice; and the pipe
      hooks are every `start` in order, followed by every `stop` in order
      exactly when the run stopped. */
  lemma StopOncePerRun(history: seq<PipeEvent>, pipes: nat, cs: seq<StopCheck>)
    ensures var r := ApplyChecks(Pump(history, pipes), cs);
      && r.resolutions <= 1
      && (r.resolutions == 1 <==> r.stopped)
      && (r.stopped <==> exists c :: c in cs && Fires(c))
      && r.log == history + StartEvents(pipes) + (if r.stopped then StopEvents(pipes) else [])
  {
    ApplyChecksKeepsShape(Pump(history, pipes), history, cs);
  }

  /** How many times `e` occurs in `log`. */
  function Count(log: seq<PipeEvent>, e: PipeEvent): nat
  {
    if log == [] then 0
    else Count(log[..|log| - 1], e) + (if log[|log| - 1] == e then 1 else 0)
  }

  lemma {:induction false} CountConcat(a: seq<PipeEvent>, b: seq<PipeEvent>, e: PipeEvent)
    ensures Count(a + b, e) == Count(a, e) + Count(b, e)
  {
    if b == [] {
      assert a + b == a;
    } else {
      assert (a + b)[..|a + b| - 1] == a + b[..|b| - 1];
      CountConcat(a, b[..|b| - 1], e);
    }
  }

  lemma {:induction false} StartEventsInOrder(n: nat)
    ensures forall i :: 0 <= i < n ==> StartEvents(n)[i] == Started(i)
  {
    if n > 0 {
      StartEventsInOrder(n - 1);
      assert StartEvents(n) == StartEvents(n - 1) + [Started(n - 1)];
    }
  }

  lemma {:induction false} StopEventsInOrder(n: nat)
    ensures forall i :: 0 <= i < n ==> StopEvents(n)[i] == Stopped(i)
  {
    if n > 0 {
      StopEventsInOrder(n - 1);
      assert StopEvents(n) == StopEvents(n - 1) + [Stopped(n - 1)];
    }
  }

  lemma CountSnoc(a: seq<PipeEvent>, x: PipeEvent, e: PipeEvent)
    ensures Count(a + [x], e) == Count(a, e) + (if x == e then 1 else 0)
  {
    assert (a + [x])[..|a + [x]| - 1] == a;
  }

  lemma {:induction false} StartEventsCount(n: nat, i: nat)
    ensures Count(StartEvents(n), Started(i)) == (if i < n then 1 else 0)
    ensures Count(StartEvents(n), Stopped(i)) == 0
  {
    if n > 0 {
      var prev := StartEvents(n - 1);
      assert StartEvents(n) == prev + [Started(n - 1)];
      CountSnoc(prev, Started(n - 1), Started(i));
      CountSnoc(prev, Started(n - 1), Stopped(i));
      StartEventsCount(n - 1, i);
    }
  }

  lemma {:induction false} StopEventsCount(n: nat, i: nat)
    ensures Count(StopEvents(n), Stopped(i)) == (if i < n then 1 else 0)
    ensures Count(StopEvents(n), Started(i)) == 0
  {
    if n > 0 {
      var prev := StopEvents(n - 1);
      assert StopEvents(n) == prev + [Stopped(n - 1)];
      CountSnoc(prev, Stopped(n - 1), Stopped(i));
      CountSnoc(prev, Stopped(n - 1), Started(i));
      StopEventsCount(n - 1, i);
    }
  }

  /** Each position of the pipeline is started exactly once per run and
      stopped at most once: exactly once if the run stopped, never otherwise.
      (A pipe object listed twice is counted at each of its positions.) */
  lemma EachPipeStoppedAtMostOnce(history: seq<PipeEvent>, pipes: nat, cs: seq<StopCheck>, i: nat)
    requires i < pipes
    ensures var r := ApplyChecks(Pump(history, pipes), cs);
      && Count(r.log, Started(i)) == Count(history, Started(i)) + 1
      && Count(r.log, Stopped(i)) == Count(history, Stopped(i)) + (if r.stopped then 1 else 0)
  {
    var r := ApplyChecks(Pump(history, pipes), cs);
    StopOncePerRun(history, pipes, cs);
    var stops := if r.stopped then StopEvents(pipes) else [];
    StartEventsCount(pipes, i);
    StopEventsCount(pipes, i);
    CountConcat(history, StartEvents(pipes), Started(i));
    CountConcat(history, StartEvents(pipes), Stopped(i));
    CountConcat(history + StartEvents(pipes), stops, Started(i));
    CountConcat(history + StartEvents(pipes), stops, Stopped(i));
  }

  /** What `pump` does, once the pipes are started, with the requests it
      starts from (engine.py:159-194). */
  datatype Kickoff =
    | Await(requests: Batch, queued: bool) // `_sync_or_async(next_requests, crawler, _on_next_requests)`, in queue mode or not
    | Exhaust(requests: Batch) // `list(next_requests)` on a generator
    | Idle                     // nothing scheduled

  /** `next_requests` after the entry step (engine.py:159-167): what the
      downloader returned for the entry requests if there are any, the falsy
      `ENTRY_REQUESTS` value itself otherwise. */
  function EntryNext(entry: Batch, entryDownloads: Batch): Batch
  {
    if BatchTruthy(entry) then entryDownloads else entry
  }

  /** `pump`'s dispatch, as written (engine.py:159-194). `entry` is
      `ENTRY_REQUESTS` (`Absent` when the crawler has none); `entryDownloads`
      and `queueDownloads` are what `downloader.process` returns for the
      entry requests and for the first batch taken from the queue. */
  function PumpKickoff(entry: Batch, queued: bool, depthFirst: bool, entryDownloads: Batch, queueDownloads: Batch): Kickoff
  {
    var next := EntryNext(entry, entryDownloads);
    if queued then Await(if BatchTruthy(next) then next else queueDownloads, true)
    else if !depthFirst then Await(next, false)
    else if next.Lazy? then Exhaust(next)
    else Idle
  }
  // engine.py:193 drains only a `types.GeneratorType`; `Lazy` also stands
  // for an `itertools.chain`, which the model drains too. This changes no
  // stop check: neither `Exhaust` nor `Idle` schedules one.

  /** The stop check that the `_on_next_requests` callback registered by
      `pump` runs before any download completes. Awaiting no request at all
      runs it at once with no results: in queue mode it fetches from the
      queue and checks what came back (engine.py:229-239, `got` is that
      value), otherwise it checks with `None` (engine.py:243-244). When `pump`
      awaits requests, the same callback runs the check at engine.py:237/239
      or engine.py:244 once they resolve; that check, the ones of later rounds
      and the depth-first leaf guards (engine.py:92) are the later checks of
      `KickoffStopsIff`. */
  function KickoffChecks(k: Kickoff, inProcess: bool, got: Batch): seq<StopCheck>
  {
    match k
    case Await(b, queued) =>
      if FilterRequests(b) != [] then []
      else if queued then [QueueFetched(got, inProcess)]
      else [RecursionEnded(inProcess)]
    case _ => []
  }

  /** Whatever stop checks come after `pump`'s own, the run ends stopped
      exactly when `pump`'s own check fired (it awaited no request, nothing
      was in process and, in queue mode, the queue gave back nothing truthy)
      or a later check fired; a run that does not stop has only its `start`
      hooks called and its completion unresolved. */
  lemma KickoffStopsIff(history: seq<PipeEvent>, pipes: nat, k: Kickoff, inProcess: bool, got: Batch,
                        later: seq<StopCheck>)
    ensures var r := ApplyChecks(Pump(history, pipes), KickoffChecks(k, inProcess, got) + later);
      && (r.stopped <==>
            (k.Await? && FilterRequests(k.requests) == [] && !inProcess && (k.queued ==> !BatchTruthy(got)))
            || exists c :: c in later && Fires(c))
      && (!r.stopped ==> r.log == history + StartEvents(pipes) && r.resolutions == 0)
  {
    var cs := KickoffChecks(k, inProcess, got);
    StopOncePerRun(history, pipes, cs + later);
    assert forall c :: c in cs + later <==> c in cs || c in later;
    assert cs != [] <==> k.Await? && FilterRequests(k.requests) == [];
    if cs != [] {
      assert forall c :: c in cs <==> c == cs[0];
      assert Fires(cs[0]) <==> !inProcess && (k.queued ==> !BatchTruthy(got));
    }
  }

  /** As written, a breadth-first run without queue and without entry
      requests schedules exactly one `_check_stop(None, ...)`. */
  lemma BreadthFirstEmptyEntryChecksOnce(entry: Batch, entryDownloads: Batch, queueDownloads: Batch, inProcess: bool, got: Batch)
    requires !BatchTruthy(entry)
    ensures KickoffChecks(PumpKickoff(entry, false, false, entryDownloads, queueDownloads), inProcess, got)
         == [RecursionEnded(inProcess)]
  {
    FalsyBatchYieldsNothing(entry);
  }

  /** As written, a depth-first run without queue and without entry requests
      never stops: no pipe is stopped and the completion signal returned by
      `pump` is never resolved, even though the crawler has nothing in
      process. */
  lemma DepthFirstEmptyEntryNeverCompletes(history: seq<PipeEvent>, pipes: nat, entry: Batch,
                                           entryDownloads: Batch, queueDownloads: Batch, got: Batch)
    requires !BatchTruthy(entry)
    ensures var k := PumpKickoff(entry, false, true, entryDownloads, queueDownloads);
      var r := ApplyChecks(Pump(history, pipes), KickoffChecks(k, false, got));
      !r.stopped && r.resolutions == 0 && r.log == history + StartEvents(pipes)
  {
    var k := PumpKickoff(entry, false, true, entryDownloads, queueDownloads);
    assert k == Idle;
    KickoffStopsIff(history, pipes, k, false, got, []);
    assert KickoffChecks(k, false, got) + [] == KickoffChecks(k, false, got);
  }

  /** The evidently intended dispatch: a depth-first run that has nothing to
      download checks for the stop like a breadth-first one. */
  function PumpKickoffFixed(entry: Batch, queued: bool, depthFirst: bool, entryDownloads: Batch, queueDownloads: Batch): Kickoff
  {
    var k := PumpKickoff(entry, queued, depthFirst, entryDownloads, queueDownloads);
    var next := EntryNext(entry, entryDownloads);
    if k.Idle? && !BatchTruthy(next) then Await(next, false) else k
  }

  /** The correction changes nothing but the depth-first, queue-less case in
      which there is nothing to download. */
  lemma FixOnlyTouchesEmptyDepthFirst(entry: Batch, queued: bool, depthFirst: bool, entryDownloads: Batch, queueDownloads: Batch)
    ensures PumpKickoffFixed(entry, queued, depthFirst, entryDownloads, queueDownloads)
         != PumpKickoff(entry, queued, depthFirst, entryDownloads, queueDownloads)
        <==> !queued && depthFirst && !BatchTruthy(EntryNext(entry, entryDownloads))
  {
  }

  /** With the intended dispatch, a run without queue and without entry
      requests and with nothing in process completes in either strategy:
      every pipe is started and then stopped, in pipeline order, and the
      completion signal is resolved once. */
  lemma EmptyEntryRunCompletes(history: seq<PipeEvent>, pipes: nat, depthFirst: bool, entry: Batch,
                               entryDownloads: Batch, queueDownloads: Batch, got: Batch)
    requires !BatchTruthy(entry)
    ensures var k := PumpKickoffFixed(entry, false, depthFirst, entryDownloads, queueDownloads);
      var r := ApplyChecks(Pump(history, pipes), KickoffChecks(k, false, got));
      && r.stopped && r.resolutions == 1
      && r.log == history + StartEvents(pipes) + StopEvents(pipes)
  {
    var k := PumpKickoffFixed(entry, false, depthFirst, entryDownloads, queueDownloads);
    assert k == Await(entry, false);
    FalsyBatchYieldsNothing(entry);
    StopOncePerRun(history, pipes, KickoffChecks(k, false, got));
  }
}

=== FILE: values.dfy ===
/**
 The values the crawl engine handles: requests, items, whatever else a
 crawler hook returns, and Python's truthiness of each of them.
 */
module Values {
  import opened Seqs

  datatype Option<+T> = None | Some(value: T)

  /** A structured request descriptor (a `BaseHttpRequest`). */
  datatype Request = Request(url: string)

  /** A domain extraction result (an `Item`). */
  datatype Item = Item(fields: map<string, string>)

  /** One value produced by a crawler hook. `Other` is any value that is
      neither a request, a string nor an item (None, a number, a dict, ...);
      only its truthiness matters to the engine. */
  datatype Value =
    | Req(request: Request)
    | Str(text: string)
    | ItemValue(item: Item)
    | Other(truthy: bool)

  /** Python truthiness of a produced value: request and item objects are
      truthy, a string is truthy iff it is non-empty. */
  predicate IsTruthy(v: Value)
  {
    match v
    case Req(_) => true
    case Str(s) => s != []
    case ItemValue(_) => true
    case Other(t) => t
  }

  /** The test at engine.py:102: a request descriptor or a string. */
  predicate IsRequestLike(v: Value)
  {
    v.Req? || v.Str?
  }

  /** What a crawler hook or a response callback returns: None, a single
      value, a list, or a lazy sequence (a generator or `itertools.chain`). */
  datatype Batch =
    | Absent
    | Single(value: Value)
    | Listed(values: seq<Value>)
    | Lazy(elements: seq<Value>)

  /** Python truthiness of a returned value: a generator object is always
      truthy, whatever it would yield. */
  predicate BatchTruthy(b: Batch)
  {
    match b
    case Absent => false
    case Single(v) => IsTruthy(v)
    case Listed(vs) => vs != []
    case Lazy(_) => true
  }

  /** The values that iterating `b` yields: a list, tuple, generator or
      `itertools.chain` yields its elements, anything else (None included)
      is wrapped as a one-element sequence. */
  function Iterate(b: Batch): (r: seq<Value>)
  {
    match b
    case Absent => [Other(false)]
    case Single(v) => [v]
    case Listed(vs) => vs
    case Lazy(vs) => vs
  }

  /** `filter_requests` (engine.py:18-22): the truthy values among what
      iterating `b` yields. */
  function FilterRequests(b: Batch): (r: seq<Value>)
    ensures forall v :: v in r <==> v in Iterate(b) && IsTruthy(v)
  {
    Filter(IsTruthy, Iterate(b))
  }

  /** A falsy returned value yields no truthy value when iterated, so
      skipping it and filtering its elements agree. */
  lemma {:induction false} FalsyBatchYieldsNothing(b: Batch)
    requires !BatchTruthy(b)
    ensures FilterRequests(b) == []
  {
    match b
    case Absent =>
      assert Iterate(b) == [Other(false)];
    case Single(v) =>
      assert Iterate(b) == [v];
    case Listed(vs) =>
      assert vs == [];
    case Lazy(_) =>
  }

  /** The truthy values of a sequence of returned values, flattened in order. */
  function FlattenRequests(bs: seq<Batch>): (r: seq<Value>)
  {
    if bs == [] then [] else FilterRequests(bs[0]) + FlattenRequests(bs[1..])
  }

  lemma {:induction false} FlattenRequestsConcat(a: seq<Batch>, b: seq<Batch>)
    ensures FlattenRequests(a + b) == FlattenRequests(a) + FlattenRequests(b)
  {
    if a == [] {
      assert a + b == b;
    } else {
      assert (a + b)[1..] == a[1..] + b;
      FlattenRequestsConcat(a[1..], b);
    }
  }
}
